=== FILE: README.md ===
# Reasoning-chain sessions, modelled in Dafny

The repository holds two near-identical prototypes that drive an LLM through
a multi-step "chain of thought". `experiment.py` talks to Groq and gets
untyped JSON objects back. `anthropic_reasoning.py` talks to Anthropic and
gets validated `StepResponse` records back. Both share one design:

- `make_api_call` makes up to three attempts at the provider. It never raises.
  When every attempt fails it returns an "Error" record.
- `generate_response` loops. Each iteration makes one call, records a step
  tuple `(title, content, thinking time, confidence)`, appends the reply to
  the history, and decides what to do next:
  - a final answer before step 15 is overridden with a "continue" nudge;
  - a final answer from step 15 on ends the loop;
  - otherwise it asks for a reflection on request or on every third step;
  - otherwise it takes the default branch.
- After the loop, one more call produces the "Final Answer" record. Only that
  last emission carries the total thinking time.

The model replaces the provider with an oracle. One `ApiCall` holds the three
attempt outcomes a call may see (`Fail(msg)` or `Ok(reply)`) and the call's
duration, as an abstract natural number. A run consumes a finite sequence of
`ApiCall`s in order, final call included. If the oracle runs out first, the
trace ends with `finished == false`. This finite oracle is the fuel that
replaces the source's unbounded `while True`.

Files:

- `conversation.dfy` (`Conversation`): messages, step tuples, emissions,
  requests, traces, the oracle types, the constants, and the decimal
  rendering used in step titles.
- `retry.dfy` (`Retry`): the bounded retry loop both `make_api_call`s share.
- `policy.dfy` (`Policy`): the if/elif rule applied after every step.
- `reasoning_loop.dfy` (`ReasoningLoop`): the loop and final phase of
  `generate_response`. They are generic over a `Variant` record of hooks, one
  per point where the two files differ. The module also holds the loop
  invariant and a call-by-call characterisation of a whole run (`Shape`).
- `experiment.dfy` (`Experiment`): the hooks of experiment.py. Replies are
  dicts with defaults. The system prompt is the first history message. The
  default branch appends nothing.
- `anthropic_reasoning.dfy` (`AnthropicReasoning`): the hooks of
  anthropic_reasoning.py. Replies are typed. The system prompt travels beside
  the history. The default branch asks for the next step.

A `Trace` records every emission (a snapshot of the step list at each
`yield`). It also records every request, meaning the history as the provider
saw it, and the final history. The properties below are stated about traces.

## Model

| member | source | states |
|---|---|---|
| Retry.TryFrom | experiment.py:12-28 | from a given attempt on, the loop returns the first reply together with the number of attempts made, and every attempt in between failed; if none replies, it returns the error of the third attempt |
| Retry.Retry | anthropic_reasoning.py:17-36 | makes between 1 and 3 attempts; a reply is returned unchanged exactly when it is the first success; if all three attempts fail, the result carries the last attempt's error |
| Retry.OnlyMadeAttemptsMatter | experiment.py:12-21 | outcomes after the first reply are never consulted: two oracles that agree on the attempts made give the same result |
| Retry.ErrorContent | experiment.py:25-27 | the fallback content reads "Failed to generate ", then "final answer" on the final call or "step" otherwise, then " after 3 attempts. Error: " and the provider's error text |
| Experiment.MakeApiCall | experiment.py:11-28 | the first successful reply is returned unchanged; after three failures the result has title "Error", the error content, no confidence, and `next_action` "final_answer" on a step call but none on the final call |
| Experiment.ActionOf | experiment.py:91 | `next_action` defaults to "continue" when the key is missing |
| Experiment.StepOf | experiment.py:82-87 | the step title is "Step n: " plus the reply's title, or "Untitled Step" when missing; content defaults to "No content provided"; confidence defaults to 0.5; the time is the call's |
| Experiment.FinalStepOf | experiment.py:114-117 | the closing record is titled "Final Answer"; content defaults to "No final answer provided"; confidence defaults to 1.0 |
| Experiment.StopRule | experiment.py:74-100 | a run finishes iff some step from 15 on asks for the final answer and the oracle has a call left after it; the loop is then left at the first such step, which is at least step 15 |
| Experiment.FollowUpRule | experiment.py:89-98 | each step call adds its reply as an assistant message, then: the nudge for a final answer before step 15, the final-answer request when the loop ends, the reflection request on "reflect" or when the step number is a multiple of 3, nothing otherwise |
| Experiment.HistoryRule | experiment.py:32-106 | the first request is [system prompt, query, acknowledgement]; every request uses 750 tokens and temperature 0.2 and has no separate system prompt; every history sent is a prefix of the final history |
| Experiment.StepsAreNumbered | experiment.py:84-103 | the j-th intermediate emission shows exactly the first j+1 step tuples, the k-th titled for step k+1, with no total; only a finished run's last emission carries a total |
| Experiment.FinalEmission | experiment.py:105-119 | a finished run emits once per non-terminal step plus once at the end; the last emission holds at least 15 numbered steps, with the terminating step in no earlier emission, then the "Final Answer" record of the final call; its total is the sum of all recorded times |
| Experiment.FailedStepCall | experiment.py:23-27 | a step call that fails three times is titled "Step n: Error"; it draws the nudge before step 15 and ends the loop from step 15 on |
| Experiment.FailedFinalCall | experiment.py:108-117 | a final call that fails three times gives a "Final Answer" record with confidence 1.0 and the error content |
| AnthropicReasoning.MakeApiCall | anthropic_reasoning.py:16-36 | the first successful reply is returned unchanged; after three failures the result is titled "Error" with `next_action` "final_answer" and confidence 0.5, and its content names a final answer or a step according to the flag |
| AnthropicReasoning.StepOf | anthropic_reasoning.py:74-77 | the step tuple is "Step n: " plus the reply's title, with the reply's own content and confidence and the call's time |
| AnthropicReasoning.FinalStepOf | anthropic_reasoning.py:103 | the closing record is titled "Final Answer" and takes its content and confidence from the reply, with no default |
| AnthropicReasoning.StopRule | anthropic_reasoning.py:67-91 | a run finishes iff some step from 15 on asks for the final answer and the oracle has a call left after it; the loop is then left at the first such step |
| AnthropicReasoning.FollowUpRule | anthropic_reasoning.py:80-89 | each step call adds its reply and then exactly one user message, chosen in this order: nudge, final-answer request, reflection request, next-step request |
| AnthropicReasoning.HistoryRule | anthropic_reasoning.py:59-98 | the first request holds the query alone; every request carries the system prompt beside the history; no system message ever enters the history; every history sent is a prefix of the final one |
| AnthropicReasoning.StepsAreNumbered | anthropic_reasoning.py:74-93 | the j-th intermediate emission shows exactly the first j+1 step tuples, the k-th titled for step k+1, with no total; only a finished run's last emission carries a total |
| AnthropicReasoning.FinalEmission | anthropic_reasoning.py:95-105 | the last emission of a finished run holds at least 15 numbered steps, then a "Final Answer" record whose confidence and content are the final reply's and whose time is the final call's; its total is the sum of all recorded times |
| AnthropicReasoning.FailedStepCall | anthropic_reasoning.py:29-35 | a step call that fails three times is titled "Step n: Error"; it draws the nudge before step 15 and ends the loop from step 15 on |
| AnthropicReasoning.FailedFinalCall | anthropic_reasoning.py:29-35 | a final call that fails three times gives a "Final Answer" record with confidence 0.5 and the final-answer error content |
| Policy.Decide | experiment.py:93-98 | the loop ends iff the reply asks for the final answer at step 15 or later; it nudges iff the final answer comes earlier; it reflects iff the reply is not a final answer and either asks for "reflect" or the step number is a multiple of 3 |
| ReasoningLoop.Loop | experiment.py:74-103 | the history at any point of the loop is a prefix of the final history and of every later request; earlier requests and emissions are kept as a prefix |
| ReasoningLoop.Conclude | anthropic_reasoning.py:95-105 | the final phase adds no message after the final-answer request; when it finishes, it adds exactly one emission, and that emission carries the total |
| ReasoningLoop.LoopShape | experiment.py:74-119 | from any state satisfying the loop invariant, the run matches the call-by-call characterisation `Shape`: stop rule, request chain, intermediate emissions, closing emission |
| ReasoningLoop.StopsAtFirstEligible | anthropic_reasoning.py:82-85 | for any variant, a run finishes iff some step call before the oracle's last call stops the loop; the loop is left at the first such call |
| ReasoningLoop.EmissionsShowSteps | experiment.py:100-119 | for any variant, only the closing emission carries a total; it exists iff the run finished; it holds every step and then the final record |
| ReasoningLoop.HistoryOnlyGrows | experiment.py:89-106 | for any variant, the history is append-only: each request's history is a prefix of every later one and of the final history, and the opening history is a prefix of every request and of the final history |
| ReasoningLoop.SystemPromptStaysOutside | anthropic_reasoning.py:59-98 | if the opening history and the default follow-up hold no system message, then neither any request nor the final history does |
| Conversation.DecimalRoundTrip | experiment.py:84 | the step number rendered in a title reads back as the same number |
| Conversation.Decimal | experiment.py:84 | a step number is rendered as Python's `str` renders it: at least one character, decimal digits only, and no leading zero except for 0 itself |
| Conversation.StepTitle | anthropic_reasoning.py:74 | a step title is "Step ", then the rendered step number, then ": ", then the reply's title |

## Left out

- The Streamlit UI (`main` in both files) is not modelled. It only renders the emissions.
- The Groq, Anthropic and instructor clients are not modelled, and neither are `json.loads` or pydantic validation. One oracle outcome per attempt replaces them. Experiment replies are JSON objects whose four keys are either missing or hold a string (title, content, next_action) or a number (confidence). A reply that is not an object, or whose values have other types, is not modelled.
- Model names and the `response_format` argument are not modelled. They configure the provider.
- `time.time` and `time.sleep` are not modelled. Each call's duration is an abstract natural number supplied by the oracle. The one-second pause between attempts is not modelled, and durations are not real seconds.
- The API key and environment setup (experiment.py:7-9, anthropic_reasoning.py:9) are not modelled.
- Prompt and instruction wording is not modelled. The system prompts, the acknowledgement and the four user instructions are constants of `Instruction`, compared only for identity. `json.dumps` and `model_dump_json` are not modelled either: a reply in the history is stored as the reply itself (`Json(reply)`).
- Confidence is a mathematical real, not a float.
- ReasoningLoop.Loop: the source's loop never stops if the model never gives a late final answer. The model stops, with `finished == false`, when the finite oracle runs out. This happens either during the loop or just before the final call.
- Generator laziness and aliasing are not modelled. An emission is a snapshot of the step list when it is yielded. The source yields the same list object each time and keeps appending to it, so a consumer that kept earlier emissions would see them grow.
- Experiment.FailedFinalCall: this describes the code as written. A failed final call in experiment.py is displayed with confidence 1.0, because the error record has no confidence key. The typed variant uses 0.5 here.
- Where the two files differ, the model follows each file. For instance:
  - experiment.py puts the system prompt into the history as its first message. anthropic_reasoning.py passes it beside the history.
  - Only experiment.py opens with an assistant acknowledgement.
  - experiment.py reads reply fields with `.get` defaults. anthropic_reasoning.py uses typed fields without defaults.
  - experiment.py's default branch appends nothing. anthropic_reasoning.py's appends the next-step request.
  - experiment.py's failed-call record has no confidence and, on the final call, no `next_action`, so the final confidence default of 1.0 applies. anthropic_reasoning.py's record carries "final_answer" and 0.5.
- Both files use 750 tokens and temperature 0.2 for every call, the final call included.

=== FILE: anthropic_reasoning.dfy ===
/**
 * The Anthropic session of anthropic_reasoning.py: replies are validated
 * `StepResponse` records with all four fields, the system prompt is passed
 * beside the history, and the default branch of the loop asks for the next
 * step.
 */
module AnthropicReasoning {
  import opened Conversation
  import opened Policy
  import Retry
  import ReasoningLoop

  /** The typed reply: every field is present. */
  datatype StepResponse = StepResponse(title: string, content: string, nextAction: string, confidence: real)

  /** The confidence of every error record. */
  const ErrorConfidence: real := 0.5

  /**
   * `make_api_call`: the first reply, unchanged; when all three attempts fail,
   * an "Error" record that asks for the final answer with confidence 0.5,
   * whose content names the kind of call.
   */
  function MakeApiCall(attempts: Attempts<StepResponse>, isFinal: bool): (r: StepResponse)
    ensures forall i :: 0 <= i < MaxAttempts && Retry.FirstSuccess(attempts, i) ==> r == attempts[i].reply
    ensures Retry.AllFail(attempts) ==>
              && r.title == ErrorTitle
              && r.content == Retry.ErrorContent(isFinal, attempts[MaxAttempts - 1].error)
              && r.nextAction == FinalAction
              && r.confidence == ErrorConfidence
  {
    match Retry.Retry(attempts)
    case Answered(reply, _) => reply
    case Exhausted(e) => StepResponse(ErrorTitle, Retry.ErrorContent(isFinal, e), FinalAction, ErrorConfidence)
  }

  function ActionOf(reply: StepResponse): string
  {
    reply.nextAction
  }

  /** The step tuple of a reply: numbered title, and the reply's own content and confidence. */
  function StepOf(reply: StepResponse, stepCount: nat, time: nat): (s: Step)
    ensures s.title == StepTitle(stepCount, reply.title)
    ensures s.content == reply.content && s.confidence == reply.confidence && s.time == time
  {
    Step(StepTitle(stepCount, reply.title), reply.content, time, reply.confidence)
  }

  /** The "Final Answer" tuple: the reply's content and confidence, with no default. */
  function FinalStepOf(reply: StepResponse, time: nat): (s: Step)
    ensures s.title == FinalAnswerTitle
    ensures s.content == reply.content && s.confidence == reply.confidence && s.time == time
  {
    Step(FinalAnswerTitle, reply.content, time, reply.confidence)
  }

  /** The history before the first call: the query alone. */
  function Opening(prompt: string): seq<Message<StepResponse>>
  {
    [Message(User, Query(prompt))]
  }

  /** What the default branch appends: a request for the next step. */
  function NextStepRequest(): seq<Message<StepResponse>>
  {
    [Message(User, Fixed(NextStep))]
  }

  function Hooks(prompt: string): ReasoningLoop.Variant<StepResponse>
  {
    ReasoningLoop.Variant(Opening(prompt), Some(ReasoningInstructions), MakeApiCall, ActionOf, StepOf,
                          NextStepRequest(), FinalStepOf)
  }

  /** `generate_response(prompt)` run against the oracle `calls`. */
  function Run(prompt: string, calls: seq<ApiCall<StepResponse>>): Trace<StepResponse>
  {
    ReasoningLoop.Run(Hooks(prompt), calls)
  }

  /** The reply of the `j`-th step call. */
  function StepReply(calls: seq<ApiCall<StepResponse>>, j: nat): StepResponse
    requires j < |calls|
  {
    MakeApiCall(calls[j].attempts, false)
  }

  /** The `j`-th step call, step number `j + 1`, asks for the final answer late enough. */
  predicate LateFinal(calls: seq<ApiCall<StepResponse>>, j: nat)
    requires j < |calls|
  {
    StepReply(calls, j).nextAction == FinalAction && j + 1 >= MinSteps
  }

  lemma Shape(prompt: string, calls: seq<ApiCall<StepResponse>>)
    ensures ReasoningLoop.Shape(Hooks(prompt), calls, Run(prompt, calls))
  {
    assert ReasoningLoop.Timed(Hooks(prompt));
    ReasoningLoop.RunShape(Hooks(prompt), calls);
  }

  lemma EligibleIsLateFinal(prompt: string, calls: seq<ApiCall<StepResponse>>)
    ensures forall j :: 0 <= j < |calls| ==>
              (ReasoningLoop.Eligible(Hooks(prompt), calls, j) <==> LateFinal(calls, j))
  {
  }

  /**
   * The loop is left exactly at the first step from step 15 on whose reply asks
   * for the final answer; a run finishes iff the oracle gets that far and has a
   * final call left.
   */
  lemma StopRule(prompt: string, calls: seq<ApiCall<StepResponse>>)
    ensures var t := Run(prompt, calls);
      t.finished <==> exists j :: 0 <= j < |calls| - 1 && LateFinal(calls, j)
    ensures var t := Run(prompt, calls); var n := |t.requests| - 1;
      t.finished ==>
        && MinSteps <= n < |calls|
        && LateFinal(calls, n - 1)
        && forall j :: 0 <= j < n - 1 ==> !LateFinal(calls, j)
  {
    assert ReasoningLoop.Timed(Hooks(prompt));
    ReasoningLoop.StopsAtFirstEligible(Hooks(prompt), calls);
    EligibleIsLateFinal(prompt, calls);
  }

  /**
   * What each step call appends to the history: its reply as an assistant
   * message and then exactly one user message, chosen in order: the override
   * when a final answer comes before step 15, the final-answer request when it
   * ends the loop, the reflection request on "reflect" or every third step,
   * and the request for the next step otherwise.
   */
  predicate FollowsRule(calls: seq<ApiCall<StepResponse>>, j: nat, before: seq<Message<StepResponse>>,
                        after: seq<Message<StepResponse>>)
    requires j < |calls|
  {
    var sent := before + [Message(Assistant, Json(StepReply(calls, j)))];
    var action := StepReply(calls, j).nextAction;
    && (action == FinalAction && j + 1 < MinSteps ==>
          after == sent + [Message(User, Fixed(ContinueFiveMore))])
    && (action == FinalAction && j + 1 >= MinSteps ==>
          after == sent + [Message(User, Fixed(FinalAnswerRequest))])
    && (action != FinalAction && (action == ReflectAction || (j + 1) % ReflectEvery == 0) ==>
          after == sent + [Message(User, Fixed(SelfReflect))])
    && (action != FinalAction && action != ReflectAction && (j + 1) % ReflectEvery != 0 ==>
          after == sent + [Message(User, Fixed(NextStep))])
  }

  lemma FollowUpAt(prompt: string, calls: seq<ApiCall<StepResponse>>, t: Trace<StepResponse>, j: nat)
    requires ReasoningLoop.Shape(Hooks(prompt), calls, t) && j + 1 < |t.requests|
    ensures j < |calls| && FollowsRule(calls, j, t.requests[j].messages, t.requests[j + 1].messages)
    ensures |t.requests[j + 1].messages| == |t.requests[j].messages| + 2
    ensures t.requests[j + 1].messages[|t.requests[j].messages| + 1].role == User
  {
    var v := Hooks(prompt);
    assert t.requests[j + 1].messages == t.requests[j].messages + ReasoningLoop.Chunk(v, calls, j);
    var d := ReasoningLoop.StepDecision(v, calls, j);
    assert d == Decide(ActionOf(StepReply(calls, j)), j + 1);
  }

  /**
   * Every step call but the last extends the history as `FollowsRule` says:
   * one assistant message, then one user message.
   */
  lemma FollowUpRule(prompt: string, calls: seq<ApiCall<StepResponse>>)
    ensures |Run(prompt, calls).requests| <= |calls|
    ensures var t := Run(prompt, calls);
      forall j :: 0 <= j < |t.requests| - 1 ==>
        && FollowsRule(calls, j, t.requests[j].messages, t.requests[j + 1].messages)
        && |t.requests[j + 1].messages| == |t.requests[j].messages| + 2
        && t.requests[j + 1].messages[|t.requests[j].messages| + 1].role == User
  {
    var t := Run(prompt, calls);
    Shape(prompt, calls);
    forall j | 0 <= j < |t.requests| - 1
      ensures && FollowsRule(calls, j, t.requests[j].messages, t.requests[j + 1].messages)
              && |t.requests[j + 1].messages| == |t.requests[j].messages| + 2
              && t.requests[j + 1].messages[|t.requests[j].messages| + 1].role == User
    {
      FollowUpAt(prompt, calls, t, j);
    }
  }

  /**
   * The provider first sees the query alone; the system prompt goes beside
   * the history with every call and never into it; every history sent is a
   * prefix of the final one.
   */
  lemma HistoryRule(prompt: string, calls: seq<ApiCall<StepResponse>>)
    ensures var t := Run(prompt, calls);
      && (|t.requests| > 0 ==> t.requests[0].messages == Opening(prompt))
      && (forall j :: 0 <= j < |t.requests| ==>
            t.requests[j].system == Some(ReasoningInstructions) && t.requests[j].maxTokens == MaxTokens
            && t.requests[j].temperature == Temperature)
      && (forall j :: 0 <= j < |t.requests| ==> t.requests[j].messages <= t.history)
      && Opening(prompt) <= t.history
      && ReasoningLoop.NoSystem(t.history)
  {
    var v := Hooks(prompt);
    Shape(prompt, calls);
    assert ReasoningLoop.Timed(v);
    ReasoningLoop.HistoryOnlyGrows(v, calls);
    ReasoningLoop.SystemPromptStaysOutside(v, calls);
  }

  /**
   * The `j`-th yield shows the first `j + 1` steps, numbered from 1, and no
   * total; only the last emission of a finished run carries a total.
   */
  lemma StepsAreNumbered(prompt: string, calls: seq<ApiCall<StepResponse>>)
    ensures var t := Run(prompt, calls);
      forall j :: 0 <= j < |t.emissions| && t.emissions[j].total == None ==>
        |t.emissions[j].steps| == j + 1
    ensures var t := Run(prompt, calls);
      forall j, k :: 0 <= j < |t.emissions| && t.emissions[j].total == None && 0 <= k < |t.emissions[j].steps| ==>
        k < |calls| && t.emissions[j].steps[k] == StepOf(StepReply(calls, k), k + 1, calls[k].duration)
    ensures var t := Run(prompt, calls);
      t.finished <==> |t.emissions| > 0 && t.emissions[|t.emissions| - 1].total.Some?
    ensures var t := Run(prompt, calls);
      forall j :: 0 <= j < |t.emissions| - 1 ==> t.emissions[j].total == None
  {
    var t := Run(prompt, calls);
    var v := Hooks(prompt);
    assert ReasoningLoop.Timed(v);
    ReasoningLoop.EmissionsShowSteps(v, calls);
    forall j, k | 0 <= j < |t.emissions| && t.emissions[j].total == None && 0 <= k < |t.emissions[j].steps|
      ensures k < |calls| && t.emissions[j].steps[k] == StepOf(StepReply(calls, k), k + 1, calls[k].duration)
    {
      assert ReasoningLoop.Intermediate(v, calls, t.emissions[j], j);
    }
  }

  /**
   * The last emission of a finished run: at least 15 numbered steps, the one
   * that stopped the loop among them but in no earlier emission, then the
   * "Final Answer" record of the final call, carrying the final reply's own
   * content and confidence and the final call's time; the total is the sum
   * of all the recorded times.
   */
  ghost predicate ClosesWithFinalAnswer(calls: seq<ApiCall<StepResponse>>, t: Trace<StepResponse>)
  {
    var n := |t.requests| - 1;
    t.finished ==>
      && 1 <= n < |calls|
      && |t.emissions| == n
      && var e := t.emissions[n - 1];
      && |e.steps| == n + 1 >= MinSteps + 1
      && (forall k :: 0 <= k < n ==> e.steps[k] == StepOf(StepReply(calls, k), k + 1, calls[k].duration))
      && e.steps[n] == FinalStepOf(MakeApiCall(calls[n].attempts, true), calls[n].duration)
      && e.total == Some(TotalTime(e.steps))
      && forall j :: 0 <= j < n - 1 ==> |t.emissions[j].steps| < n
  }

  /** Any trace matching the call-by-call `Shape` closes as `ClosesWithFinalAnswer` says. */
  lemma ClosingOf(prompt: string, calls: seq<ApiCall<StepResponse>>, t: Trace<StepResponse>)
    requires ReasoningLoop.Shape(Hooks(prompt), calls, t)
    ensures ClosesWithFinalAnswer(calls, t)
  {
    var v := Hooks(prompt);
    if t.finished {
      var n := |t.requests| - 1;
      var e := t.emissions[n - 1];
      assert ReasoningLoop.Closing(v, calls, e, n);
      assert ReasoningLoop.Eligible(v, calls, n - 1);
      forall k | 0 <= k < n
        ensures e.steps[k] == StepOf(StepReply(calls, k), k + 1, calls[k].duration)
      {
        assert e.steps[..n][k] == e.steps[k];
      }
      forall j | 0 <= j < n - 1
        ensures |t.emissions[j].steps| < n
      {
        assert ReasoningLoop.Intermediate(v, calls, t.emissions[j], j);
      }
    }
  }

  lemma FinalEmission(prompt: string, calls: seq<ApiCall<StepResponse>>)
    ensures ClosesWithFinalAnswer(calls, Run(prompt, calls))
  {
    Shape(prompt, calls);
    ClosingOf(prompt, calls, Run(prompt, calls));
  }

  /**
   * A step call whose three attempts all fail reads as a final answer: before
   * step 15 it draws the override, from step 15 on it ends the loop.
   */
  lemma FailedStepCall(attempts: Attempts<StepResponse>, stepCount: nat)
    requires Retry.AllFail(attempts)
    ensures StepOf(MakeApiCall(attempts, false), stepCount, 0).title == StepTitle(stepCount, ErrorTitle)
    ensures stepCount < MinSteps ==> Decide(ActionOf(MakeApiCall(attempts, false)), stepCount) == Nudge
    ensures stepCount >= MinSteps ==> Decide(ActionOf(MakeApiCall(attempts, false)), stepCount) == Finish
  {
  }

  /** A final call whose three attempts all fail is recorded with confidence 0.5. */
  lemma FailedFinalCall(attempts: Attempts<StepResponse>, time: nat)
    requires Retry.AllFail(attempts)
    ensures var s := FinalStepOf(MakeApiCall(attempts, true), time);
      && s.title == FinalAnswerTitle
      && s.confidence == ErrorConfidence
      && s.content == Retry.ErrorContent(true, attempts[MaxAttempts - 1].error)
  {
  }
}

=== FILE: conversation.dfy ===
/**
 * Shared vocabulary of the two reasoning-chain prototypes: messages of the
 * conversation history, the step records shown to the user, the emissions of
 * a session, and the abstract provider oracle that replaces the LLM endpoint.
 */
module Conversation {

  /** A value that may be absent, as a key missing from a JSON object. */
  datatype Option<+T> = None | Some(value: T) {
    /** The value, or `default` when absent (Python's `dict.get(key, default)`). */
    function GetOr(default: T): (r: T)
      ensures Some? ==> r == value
      ensures None? ==> r == default
    {
      match this
      case Some(v) => v
      case None => default
    }
  }

  datatype Role = System | User | Assistant

  /**
   * The fixed texts the sessions put into a conversation. Their wording is not
   * modelled: only which one is sent matters.
   */
  datatype Instruction =
    | JsonReasoningInstructions   // system prompt that also asks for JSON keys
    | ReasoningInstructions       // system prompt passed beside the history
    | Acknowledgement             // the assistant's opening "I will think step by step"
    | ContinueFiveMore            // override of a final answer given too early
    | SelfReflect                 // request for a self-reflection
    | NextStep                    // request for the next step
    | FinalAnswerRequest          // request for the comprehensive final answer

  /** A message body: the user's query, a fixed instruction, or a serialised reply. */
  datatype Body<R> = Query(text: string) | Fixed(instruction: Instruction) | Json(reply: R)

  datatype Message<R> = Message(role: Role, body: Body<R>)

  /** What one provider call is given besides the model name. */
  datatype Request<R> = Request(system: Option<Instruction>, messages: seq<Message<R>>,
                                maxTokens: nat, temperature: real)

  /** The step tuple (title, content, thinking time, confidence); time is abstract. */
  datatype Step = Step(title: string, content: string, time: nat, confidence: real)

  /** One `yield` of a session: the steps so far and, on the last one only, the total time. */
  datatype Emission = Emission(steps: seq<Step>, total: Option<nat>)

  /**
   * What a finite run of a session produced: its emissions, the requests sent
   * to the provider in order, the final history, and whether it reached the
   * final emission before the oracle ran out.
   */
  datatype Trace<R> = Trace(emissions: seq<Emission>, requests: seq<Request<R>>,
                            history: seq<Message<R>>, finished: bool)

  /** The outcome of one attempt at the provider: it raised, or it replied. */
  datatype Outcome<R> = Fail(error: string) | Ok(reply: R)

  const MaxAttempts: nat := 3
  const MaxTokens: nat := 750
  const Temperature: real := 0.2
  /** A final answer is accepted only from this step on. */
  const MinSteps: nat := 15
  /** Every step whose number is a multiple of this is followed by a reflection. */
  const ReflectEvery: nat := 3

  /** The outcomes of the attempts one API call may make, in order. */
  type Attempts<R> = a: seq<Outcome<R>> | |a| == MaxAttempts
    witness [Fail(""), Fail(""), Fail("")]

  /** The oracle for one API call: its attempt outcomes and how long the call took. */
  datatype ApiCall<R> = ApiCall(attempts: Attempts<R>, duration: nat)

  /** Sum of the thinking times of `steps`. */
  function TotalTime(steps: seq<Step>): nat
  {
    if |steps| == 0 then 0 else TotalTime(steps[..|steps| - 1]) + steps[|steps| - 1].time
  }

  lemma TotalTimeAppend(steps: seq<Step>, s: Step)
    ensures TotalTime(steps + [s]) == TotalTime(steps) + s.time
  {
    assert (steps + [s])[..|steps|] == steps;
  }

  function Digit(d: nat): (c: char)
    requires d < 10
    ensures '0' <= c <= '9'
  {
    ('0' as int + d) as char
  }

  /** Decimal rendering of a natural number, as Python's `str(int)`. */
  function Decimal(n: nat): (r: string)
    ensures |r| >= 1
    ensures forall k :: 0 <= k < |r| ==> '0' <= r[k] <= '9'
    ensures r[0] == '0' <==> n == 0   // no leading zero
    ensures n == 0 ==> r == "0"
    decreases n
  {
    if n < 10 then [Digit(n)] else Decimal(n / 10) + [Digit(n % 10)]
  }

  /**
   * The number a string of decimal digits denotes. The `% 10` only keeps the
   * result a `nat` for characters that are not digits; on digits it changes nothing.
   */
  function ValueOf(s: string): nat
  {
    if |s| == 0 then 0 else ValueOf(s[..|s| - 1]) * 10 + (s[|s| - 1] as int - '0' as int) % 10
  }

  /** Reading back a rendered number gives the number: step numbers are recoverable. */
  lemma {:induction false} DecimalRoundTrip(n: nat)
    ensures ValueOf(Decimal(n)) == n
    decreases n
  {
    if n >= 10 {
      DecimalRoundTrip(n / 10);
      var d := Decimal(n / 10) + [Digit(n % 10)];
      assert d[..|d| - 1] == Decimal(n / 10);
    }
  }

  /** The title of a numbered step: `"Step {n}: {title}"`. */
  function StepTitle(n: nat, title: string): (r: string)
    ensures |r| == 7 + |Decimal(n)| + |title|
    ensures r[..5] == "Step "
    ensures r[5..5 + |Decimal(n)|] == Decimal(n)
    ensures r[5 + |Decimal(n)|..7 + |Decimal(n)|] == ": "
    ensures r[|r| - |title|..] == title
  {
    "Step " + Decimal(n) + ": " + title
  }

  const FinalAnswerTitle: string := "Final Answer"
  const ErrorTitle: string := "Error"
}

=== FILE: experiment.dfy ===
/**
 * The Groq session of experiment.py: replies are untyped JSON objects whose
 * keys may be missing, the system prompt is the first message of the history,
 * and the default branch of the loop appends no user message.
 */
module Experiment {
  import opened Conversation
  import opened Policy
  import Retry
  import ReasoningLoop

  /** A reply as `json.loads` returns it: any of the four keys may be missing. */
  datatype Reply = Reply(title: Option<string>, content: Option<string>,
                         nextAction: Option<string>, confidence: Option<real>)

  const UntitledStep: string := "Untitled Step"
  const NoContent: string := "No content provided"
  const NoFinalAnswer: string := "No final answer provided"
  const StepConfidence: real := 0.5
  const FinalConfidence: real := 1.0

  /**
   * `make_api_call`: the first reply, unchanged; when all three attempts fail,
   * an "Error" record with neither confidence nor, on the final call, a
   * `next_action` key.
   */
  function MakeApiCall(attempts: Attempts<Reply>, isFinal: bool): (r: Reply)
    ensures forall i :: 0 <= i < MaxAttempts && Retry.FirstSuccess(attempts, i) ==> r == attempts[i].reply
    ensures Retry.AllFail(attempts) ==>
              && r.title == Some(ErrorTitle)
              && r.content == Some(Retry.ErrorContent(isFinal, attempts[MaxAttempts - 1].error))
              && r.nextAction == (if isFinal then None else Some(FinalAction))
              && r.confidence == None
  {
    match Retry.Retry(attempts)
    case Answered(reply, _) => reply
    case Exhausted(e) =>
      Reply(Some(ErrorTitle), Some(Retry.ErrorContent(isFinal, e)),
            if isFinal then None else Some(FinalAction), None)
  }

  /** The `next_action` of a reply, "continue" when missing. */
  function ActionOf(reply: Reply): (a: string)
    ensures reply.nextAction == None ==> a == ContinueAction
    ensures reply.nextAction.Some? ==> a == reply.nextAction.value
  {
    reply.nextAction.GetOr(ContinueAction)
  }

  /** The step tuple of a reply; each missing key takes its default. */
  function StepOf(reply: Reply, stepCount: nat, time: nat): (s: Step)
    ensures s.time == time
    ensures reply.title == None ==> s.title == StepTitle(stepCount, UntitledStep)
    ensures reply.title.Some? ==> s.title == StepTitle(stepCount, reply.title.value)
    ensures reply.content == None ==> s.content == NoContent
    ensures reply.content.Some? ==> s.content == reply.content.value
    ensures reply.confidence == None ==> s.confidence == StepConfidence
    ensures reply.confidence.Some? ==> s.confidence == reply.confidence.value
  {
    Step(StepTitle(stepCount, reply.title.GetOr(UntitledStep)), reply.content.GetOr(NoContent),
         time, reply.confidence.GetOr(StepConfidence))
  }

  /** The "Final Answer" tuple of the final reply; its confidence defaults to 1.0. */
  function FinalStepOf(reply: Reply, time: nat): (s: Step)
    ensures s.title == FinalAnswerTitle && s.time == time
    ensures reply.content == None ==> s.content == NoFinalAnswer
    ensures reply.content.Some? ==> s.content == reply.content.value
    ensures reply.confidence == None ==> s.confidence == FinalConfidence
    ensures reply.confidence.Some? ==> s.confidence == reply.confidence.value
  {
    Step(FinalAnswerTitle, reply.content.GetOr(NoFinalAnswer), time, reply.confidence.GetOr(FinalConfidence))
  }

  /** The history before the first call: system prompt, query, acknowledgement. */
  function Opening(prompt: string): seq<Message<Reply>>
  {
    [Message(System, Fixed(JsonReasoningInstructions)), Message(User, Query(prompt)),
     Message(Assistant, Fixed(Acknowledgement))]
  }

  function Hooks(prompt: string): ReasoningLoop.Variant<Reply>
  {
    ReasoningLoop.Variant(Opening(prompt), None, MakeApiCall, ActionOf, StepOf, [], FinalStepOf)
  }

  /** `generate_response(prompt)` run against the oracle `calls`. */
  function Run(prompt: string, calls: seq<ApiCall<Reply>>): Trace<Reply>
  {
    ReasoningLoop.Run(Hooks(prompt), calls)
  }

  /** The reply of the `j`-th step call. */
  function StepReply(calls: seq<ApiCall<Reply>>, j: nat): Reply
    requires j < |calls|
  {
    MakeApiCall(calls[j].attempts, false)
  }

  /** The `j`-th step call, step number `j + 1`, asks for the final answer late enough. */
  predicate LateFinal(calls: seq<ApiCall<Reply>>, j: nat)
    requires j < |calls|
  {
    ActionOf(StepReply(calls, j)) == FinalAction && j + 1 >= MinSteps
  }

  lemma Shape(prompt: string, calls: seq<ApiCall<Reply>>)
    ensures ReasoningLoop.Shape(Hooks(prompt), calls, Run(prompt, calls))
  {
    assert ReasoningLoop.Timed(Hooks(prompt));
    ReasoningLoop.RunShape(Hooks(prompt), calls);
  }

  lemma EligibleIsLateFinal(prompt: string, calls: seq<ApiCall<Reply>>)
    ensures forall j :: 0 <= j < |calls| ==>
              (ReasoningLoop.Eligible(Hooks(prompt), calls, j) <==> LateFinal(calls, j))
  {
  }

  /**
   * The loop is left exactly at the first step from step 15 on whose reply asks
   * for the final answer; a run finishes iff the oracle gets that far and has a
   * final call left.
   */
  lemma StopRule(prompt: string, calls: seq<ApiCall<Reply>>)
    ensures var t := Run(prompt, calls);
      t.finished <==> exists j :: 0 <= j < |calls| - 1 && LateFinal(calls, j)
    ensures var t := Run(prompt, calls); var n := |t.requests| - 1;
      t.finished ==>
        && MinSteps <= n < |calls|
        && LateFinal(calls, n - 1)
        && forall j :: 0 <= j < n - 1 ==> !LateFinal(calls, j)
  {
    assert ReasoningLoop.Timed(Hooks(prompt));
    ReasoningLoop.StopsAtFirstEligible(Hooks(prompt), calls);
    EligibleIsLateFinal(prompt, calls);
  }

  /**
   * What each step call appends to the history, after the assistant message
   * with its reply: the override when a final answer comes before step 15, the
   * final-answer request when it ends the loop, the reflection request on
   * "reflect" or every third step, and nothing otherwise.
   */
  predicate FollowsRule(calls: seq<ApiCall<Reply>>, j: nat, before: seq<Message<Reply>>,
                        after: seq<Message<Reply>>)
    requires j < |calls|
  {
    var sent := before + [Message(Assistant, Json(StepReply(calls, j)))];
    var action := ActionOf(StepReply(calls, j));
    && (action == FinalAction && j + 1 < MinSteps ==>
          after == sent + [Message(User, Fixed(ContinueFiveMore))])
    && (action == FinalAction && j + 1 >= MinSteps ==>
          after == sent + [Message(User, Fixed(FinalAnswerRequest))])
    && (action != FinalAction && (action == ReflectAction || (j + 1) % ReflectEvery == 0) ==>
          after == sent + [Message(User, Fixed(SelfReflect))])
    && (action != FinalAction && action != ReflectAction && (j + 1) % ReflectEvery != 0 ==>
          after == sent)
  }

  lemma FollowUpAt(prompt: string, calls: seq<ApiCall<Reply>>, t: Trace<Reply>, j: nat)
    requires ReasoningLoop.Shape(Hooks(prompt), calls, t) && j + 1 < |t.requests|
    ensures j < |calls| && FollowsRule(calls, j, t.requests[j].messages, t.requests[j + 1].messages)
  {
    var v := Hooks(prompt);
    assert t.requests[j + 1].messages == t.requests[j].messages + ReasoningLoop.Chunk(v, calls, j);
    var d := ReasoningLoop.StepDecision(v, calls, j);
    assert d == Decide(ActionOf(StepReply(calls, j)), j + 1);
  }

  /** Every step call but the last extends the history as `FollowsRule` says. */
  lemma FollowUpRule(prompt: string, calls: seq<ApiCall<Reply>>)
    ensures |Run(prompt, calls).requests| <= |calls|
    ensures var t := Run(prompt, calls);
      forall j :: 0 <= j < |t.requests| - 1 ==>
        FollowsRule(calls, j, t.requests[j].messages, t.requests[j + 1].messages)
  {
    var t := Run(prompt, calls);
    Shape(prompt, calls);
    forall j | 0 <= j < |t.requests| - 1
      ensures FollowsRule(calls, j, t.requests[j].messages, t.requests[j + 1].messages)
    {
      FollowUpAt(prompt, calls, t, j);
    }
  }

  /**
   * The provider first sees system prompt, query and acknowledgement, always
   * with the same budget and temperature; every history it is sent is a prefix
   * of the final one.
   */
  lemma HistoryRule(prompt: string, calls: seq<ApiCall<Reply>>)
    ensures var t := Run(prompt, calls);
      && (|t.requests| > 0 ==> t.requests[0].messages == Opening(prompt))
      && (forall j :: 0 <= j < |t.requests| ==>
            t.requests[j].system == None && t.requests[j].maxTokens == MaxTokens
            && t.requests[j].temperature == Temperature)
      && (forall j :: 0 <= j < |t.requests| ==> t.requests[j].messages <= t.history)
      && Opening(prompt) <= t.history
  {
    Shape(prompt, calls);
    assert ReasoningLoop.Timed(Hooks(prompt));
    ReasoningLoop.HistoryOnlyGrows(Hooks(prompt), calls);
  }

  /**
   * The `j`-th yield shows the first `j + 1` steps, numbered from 1, and no
   * total; only the last emission of a finished run carries a total.
   */
  lemma StepsAreNumbered(prompt: string, calls: seq<ApiCall<Reply>>)
    ensures var t := Run(prompt, calls);
      forall j :: 0 <= j < |t.emissions| && t.emissions[j].total == None ==>
        |t.emissions[j].steps| == j + 1
    ensures var t := Run(prompt, calls);
      forall j, k :: 0 <= j < |t.emissions| && t.emissions[j].total == None && 0 <= k < |t.emissions[j].steps| ==>
        k < |calls| && t.emissions[j].steps[k] == StepOf(StepReply(calls, k), k + 1, calls[k].duration)
    ensures var t := Run(prompt, calls);
      t.finished <==> |t.emissions| > 0 && t.emissions[|t.emissions| - 1].total.Some?
    ensures var t := Run(prompt, calls);
      forall j :: 0 <= j < |t.emissions| - 1 ==> t.emissions[j].total == None
  {
    var t := Run(prompt, calls);
    var v := Hooks(prompt);
    assert ReasoningLoop.Timed(v);
    ReasoningLoop.EmissionsShowSteps(v, calls);
    forall j, k | 0 <= j < |t.emissions| && t.emissions[j].total == None && 0 <= k < |t.emissions[j].steps|
      ensures k < |calls| && t.emissions[j].steps[k] == StepOf(StepReply(calls, k), k + 1, calls[k].duration)
    {
      assert ReasoningLoop.Intermediate(v, calls, t.emissions[j], j);
    }
  }

  /**
   * The last emission of a finished run: at least 15 numbered steps, the one
   * that stopped the loop among them but in no earlier emission, then the
   * "Final Answer" record of the final call, with the final call's time; the
   * total is the sum of all the recorded times.
   */
  ghost predicate ClosesWithFinalAnswer(calls: seq<ApiCall<Reply>>, t: Trace<Reply>)
  {
    var n := |t.requests| - 1;
    t.finished ==>
      && 1 <= n < |calls|
      && |t.emissions| == n
      && var e := t.emissions[n - 1];
      && |e.steps| == n + 1 >= MinSteps + 1
      && (forall k :: 0 <= k < n ==> e.steps[k] == StepOf(StepReply(calls, k), k + 1, calls[k].duration))
      && e.steps[n] == FinalStepOf(MakeApiCall(calls[n].attempts, true), calls[n].duration)
      && e.total == Some(TotalTime(e.steps))
      && forall j :: 0 <= j < n - 1 ==> |t.emissions[j].steps| < n
  }

  /** Any trace matching the call-by-call `Shape` closes as `ClosesWithFinalAnswer` says. */
  lemma ClosingOf(prompt: string, calls: seq<ApiCall<Reply>>, t: Trace<Reply>)
    requires ReasoningLoop.Shape(Hooks(prompt), calls, t)
    ensures ClosesWithFinalAnswer(calls, t)
  {
    var v := Hooks(prompt);
    if t.finished {
      var n := |t.requests| - 1;
      var e := t.emissions[n - 1];
      assert ReasoningLoop.Closing(v, calls, e, n);
      assert ReasoningLoop.Eligible(v, calls, n - 1);
      forall k | 0 <= k < n
        ensures e.steps[k] == StepOf(StepReply(calls, k), k + 1, calls[k].duration)
      {
        assert e.steps[..n][k] == e.steps[k];
      }
      forall j | 0 <= j < n - 1
        ensures |t.emissions[j].steps| < n
      {
        assert ReasoningLoop.Intermediate(v, calls, t.emissions[j], j);
      }
    }
  }

  lemma FinalEmission(prompt: string, calls: seq<ApiCall<Reply>>)
    ensures ClosesWithFinalAnswer(calls, Run(prompt, calls))
  {
    Shape(prompt, calls);
    ClosingOf(prompt, calls, Run(prompt, calls));
  }

  /**
   * A step call whose three attempts all fail reads as a final answer: before
   * step 15 it draws the override, from step 15 on it ends the loop.
   */
  lemma FailedStepCall(attempts: Attempts<Reply>, stepCount: nat)
    requires Retry.AllFail(attempts)
    ensures StepOf(MakeApiCall(attempts, false), stepCount, 0).title == StepTitle(stepCount, ErrorTitle)
    ensures stepCount < MinSteps ==> Decide(ActionOf(MakeApiCall(attempts, false)), stepCount) == Nudge
    ensures stepCount >= MinSteps ==> Decide(ActionOf(MakeApiCall(attempts, false)), stepCount) == Finish
  {
  }

  /** A final call whose three attempts all fail is recorded with the default confidence 1.0. */
  lemma FailedFinalCall(attempts: Attempts<Reply>, time: nat)
    requires Retry.AllFail(attempts)
    ensures var s := FinalStepOf(MakeApiCall(attempts, true), time);
      && s.title == FinalAnswerTitle
      && s.confidence == FinalConfidence
      && s.content == Retry.ErrorContent(true, attempts[MaxAttempts - 1].error)
  {
  }
}

=== FILE: policy.dfy ===
/**
 * The action-selection rule both sessions apply after every step: the
 * if/elif chain on `next_action` and the step counter.
 */
module Policy {
  import opened Conversation

  const FinalAction: string := "final_answer"
  const ReflectAction: string := "reflect"
  const ContinueAction: string := "continue"

  /** What the session does after a step. */
  datatype Decision =
    | Nudge     // final answer too early: ask for at least five more steps
    | Finish    // leave the loop and ask for the final answer
    | Reflect   // ask for a self-reflection
    | Proceed   // the default branch (differs between the two sessions)

  /**
   * The decision after step `stepCount` whose reply asked for `action`: a final
   * answer ends the loop only from step `MinSteps` on; a reflection is asked for
   * on request or on every third step.
   */
  function Decide(action: string, stepCount: nat): (d: Decision)
    ensures d == Finish <==> action == FinalAction && stepCount >= MinSteps
    ensures d == Nudge <==> action == FinalAction && stepCount < MinSteps
    ensures d == Reflect <==>
              action != FinalAction && (action == ReflectAction || stepCount % ReflectEvery == 0)
    ensures d == Proceed <==>
              action != FinalAction && action != ReflectAction && stepCount % ReflectEvery != 0
  {
    if action == FinalAction && stepCount < MinSteps then Nudge
    else if action == FinalAction then Finish
    else if action == ReflectAction || stepCount % ReflectEvery == 0 then Reflect
    else Proceed
  }
}

=== FILE: reasoning_loop.dfy ===
/**
 * The control loop of `generate_response`, shared by both sessions: call the
 * provider, record the step, append the reply and the follow-up message to the
 * history, decide whether to go on, and after the loop issue the final call.
 *
 * The provider is an oracle: the run consumes one `ApiCall` per provider call,
 * in order, the final call included. A run that exhausts the oracle stops
 * with `finished == false`; the source's loop would keep calling.
 */
module ReasoningLoop {
  import opened Conversation
  import opened Policy

  /** What distinguishes one session from the other. */
  datatype Variant<!R> = Variant(
    opening: seq<Message<R>>,          // the history before the first call
    system: Option<Instruction>,       // the system prompt passed beside the history
    call: (Attempts<R>, bool) -> R,    // make_api_call, given whether it is the final call
    action: R -> string,               // the reply's next_action
    stepOf: (R, nat, nat) -> Step,     // the step tuple of (reply, step_count, time)
    proceed: seq<Message<R>>,          // what the default branch appends
    finalOf: (R, nat) -> Step)         // the "Final Answer" tuple of (reply, time)

  /** The step tuples carry the time they are given. */
  ghost predicate Timed<R(!new)>(v: Variant<R>)
  {
    && (forall r, n, time :: v.stepOf(r, n, time).time == time)
    && (forall r, time :: v.finalOf(r, time).time == time)
  }

  /** The local variables of `generate_response` between two iterations. */
  datatype Session<R> = Session(stepCount: nat, messages: seq<Message<R>>, steps: seq<Step>,
                                total: nat, requests: seq<Request<R>>, emissions: seq<Emission>)

  function UserSays<R>(i: Instruction): Message<R>
  {
    Message(User, Fixed(i))
  }

  /** The user messages appended after the assistant message of a step. */
  function Appended<R>(v: Variant<R>, d: Decision): seq<Message<R>>
  {
    match d
    case Nudge => [UserSays(ContinueFiveMore)]
    case Reflect => [UserSays(SelfReflect)]
    case Proceed => v.proceed
    case Finish => [UserSays(FinalAnswerRequest)]
  }

  function RequestOf<R>(v: Variant<R>, messages: seq<Message<R>>): Request<R>
  {
    Request(v.system, messages, MaxTokens, Temperature)
  }

  function Start<R>(v: Variant<R>): Session<R>
  {
    Session(1, v.opening, [], 0, [], [])
  }

  /** The session run against the oracle `calls`. */
  function Run<R>(v: Variant<R>, calls: seq<ApiCall<R>>): Trace<R>
  {
    Loop(v, calls, 0, Start(v))
  }

  /**
   * The `while True` loop, `i` provider calls having been made. The history
   * only grows: the current history is a prefix of the final one and of every
   * later request.
   */
  function Loop<R>(v: Variant<R>, calls: seq<ApiCall<R>>, i: nat, s: Session<R>): (t: Trace<R>)
    ensures s.messages <= t.history
    ensures s.requests <= t.requests && s.emissions <= t.emissions
    ensures forall k :: |s.requests| <= k < |t.requests| ==> s.messages <= t.requests[k].messages
    decreases |calls| - i
  {
    if i >= |calls| then Trace(s.emissions, s.requests, s.messages, false)
    else
      var data := v.call(calls[i].attempts, false);
      var time := calls[i].duration;
      var steps := s.steps + [v.stepOf(data, s.stepCount, time)];
      var messages := s.messages + [Message(Assistant, Json(data))];
      var requests := s.requests + [RequestOf(v, s.messages)];
      var decision := Decide(v.action(data), s.stepCount);
      if decision == Finish then
        Conclude(v, calls, i + 1,
                 Session(s.stepCount, messages + Appended(v, Finish), steps, s.total + time,
                         requests, s.emissions))
      else
        Loop(v, calls, i + 1,
             Session(s.stepCount + 1, messages + Appended(v, decision), steps, s.total + time,
                     requests, s.emissions + [Emission(steps, None)]))
  }

  /**
   * After the loop: the final call, whose record closes the step list; the one
   * emission that carries the total time.
   */
  function Conclude<R>(v: Variant<R>, calls: seq<ApiCall<R>>, i: nat, s: Session<R>): (t: Trace<R>)
    ensures t.history == s.messages
    ensures t.finished ==> |t.emissions| == |s.emissions| + 1 && t.emissions[|s.emissions|].total.Some?
  {
    if i >= |calls| then Trace(s.emissions, s.requests, s.messages, false)
    else
      var data := v.call(calls[i].attempts, true);
      var time := calls[i].duration;
      var steps := s.steps + [v.finalOf(data, time)];
      Trace(s.emissions + [Emission(steps, Some(s.total + time))],
            s.requests + [RequestOf(v, s.messages)], s.messages, true)
  }

  // ---------------------------------------------------------------------------
  // The run described call by call

  /** The reply of the `j`-th step call. */
  function StepReply<R>(v: Variant<R>, calls: seq<ApiCall<R>>, j: nat): R
    requires j < |calls|
  {
    v.call(calls[j].attempts, false)
  }

  /** The decision after the `j`-th step call, which is step number `j + 1`. */
  function StepDecision<R>(v: Variant<R>, calls: seq<ApiCall<R>>, j: nat): Decision
    requires j < |calls|
  {
    Decide(v.action(StepReply(v, calls, j)), j + 1)
  }

  predicate Eligible<R>(v: Variant<R>, calls: seq<ApiCall<R>>, j: nat)
    requires j < |calls|
  {
    StepDecision(v, calls, j) == Finish
  }

  /** The step tuple of the `j`-th step call. */
  function ExpectedStep<R>(v: Variant<R>, calls: seq<ApiCall<R>>, j: nat): Step
    requires j < |calls|
  {
    v.stepOf(StepReply(v, calls, j), j + 1, calls[j].duration)
  }

  /** The messages the `j`-th step call adds to the history. */
  function Chunk<R>(v: Variant<R>, calls: seq<ApiCall<R>>, j: nat): seq<Message<R>>
    requires j < |calls|
  {
    [Message(Assistant, Json(StepReply(v, calls, j)))] + Appended(v, StepDecision(v, calls, j))
  }

  /** The "Final Answer" tuple when the final call is the `j`-th call. */
  function ClosingStep<R>(v: Variant<R>, calls: seq<ApiCall<R>>, j: nat): Step
    requires j < |calls|
  {
    v.finalOf(v.call(calls[j].attempts, true), calls[j].duration)
  }

  ghost predicate StepsSoFar<R>(v: Variant<R>, calls: seq<ApiCall<R>>, steps: seq<Step>)
  {
    |steps| <= |calls| && forall k :: 0 <= k < |steps| ==> steps[k] == ExpectedStep(v, calls, k)
  }

  /** The emission yielded after the `j`-th step call. */
  ghost predicate Intermediate<R>(v: Variant<R>, calls: seq<ApiCall<R>>, e: Emission, j: nat)
  {
    e.total == None && |e.steps| == j + 1 && StepsSoFar(v, calls, e.steps)
  }

  /** The last emission, the final call being the `n`-th call. */
  ghost predicate Closing<R>(v: Variant<R>, calls: seq<ApiCall<R>>, e: Emission, n: nat)
  {
    && n < |calls|
    && |e.steps| == n + 1
    && StepsSoFar(v, calls, e.steps[..n])
    && e.steps[n] == ClosingStep(v, calls, n)
    && e.total == Some(TotalTime(e.steps))
  }

  /**
   * The requests start from the opening history, each extends the previous one
   * by one step's messages, and `last` extends the last of them likewise.
   */
  ghost predicate Chained<R>(v: Variant<R>, calls: seq<ApiCall<R>>, requests: seq<Request<R>>,
                             last: seq<Message<R>>)
  {
    && |requests| <= |calls|
    && (forall j :: 0 <= j < |requests| ==> requests[j] == RequestOf(v, requests[j].messages))
    && (|requests| == 0 ==> last == v.opening)
    && (|requests| > 0 ==> requests[0].messages == v.opening)
    && (|requests| > 0 ==> last == requests[|requests| - 1].messages + Chunk(v, calls, |requests| - 1))
    && (forall j :: 0 <= j < |requests| - 1 ==>
          requests[j + 1].messages == requests[j].messages + Chunk(v, calls, j))
  }

  /** The loop invariant: the session after `i` step calls, none of which stopped the loop. */
  ghost predicate Reached<R>(v: Variant<R>, calls: seq<ApiCall<R>>, i: nat, s: Session<R>)
  {
    && i <= |calls|
    && s.stepCount == i + 1
    && |s.steps| == i && StepsSoFar(v, calls, s.steps)
    && s.total == TotalTime(s.steps)
    && |s.requests| == i && Chained(v, calls, s.requests, s.messages)
    && |s.emissions| == i
    && (forall j :: 0 <= j < i ==> Intermediate(v, calls, s.emissions[j], j))
    && (forall j :: 0 <= j < i ==> !Eligible(v, calls, j))
  }

  /** The state on leaving the loop after `i` step calls, the last of which stopped it. */
  ghost predicate Leaving<R>(v: Variant<R>, calls: seq<ApiCall<R>>, i: nat, s: Session<R>)
  {
    && 1 <= i <= |calls|
    && |s.steps| == i && StepsSoFar(v, calls, s.steps)
    && s.total == TotalTime(s.steps)
    && |s.requests| == i && Chained(v, calls, s.requests, s.messages)
    && |s.emissions| == i - 1
    && (forall j :: 0 <= j < i - 1 ==> Intermediate(v, calls, s.emissions[j], j))
    && (forall j :: 0 <= j < i - 1 ==> !Eligible(v, calls, j))
    && Eligible(v, calls, i - 1)
  }

  /** The number of step calls a run made. */
  function StepCalls<R>(t: Trace<R>): int
  {
    |t.requests| - (if t.finished then 1 else 0)
  }

  /** The stop rule: the loop was left at the first step call that stops it, if any. */
  ghost predicate StopShape<R>(v: Variant<R>, calls: seq<ApiCall<R>>, t: Trace<R>)
  {
    var n := StepCalls(t);
    && 0 <= n <= |calls|
    && (forall j :: 0 <= j < n - 1 ==> !Eligible(v, calls, j))
    && (t.finished ==> 1 <= n < |calls| && Eligible(v, calls, n - 1))
    && (!t.finished ==> n == |calls|)
  }

  /** The requests form a chain from the opening history, ending in the final history. */
  ghost predicate RequestShape<R>(v: Variant<R>, calls: seq<ApiCall<R>>, t: Trace<R>)
  {
    var n := StepCalls(t);
    && 0 <= n <= |calls|
    && (t.finished ==> 1 <= n < |calls|)
    && (forall j :: 0 <= j < |t.requests| ==> t.requests[j] == RequestOf(v, t.requests[j].messages))
    && (|t.requests| > 0 ==> t.requests[0].messages == v.opening)
    && (forall j :: 0 <= j < |t.requests| - 1 ==>
          t.requests[j + 1].messages == t.requests[j].messages + Chunk(v, calls, j))
    && (t.finished ==> t.history == t.requests[n].messages)
    && (!t.finished ==>
          t.history == (if n == 0 then v.opening else t.requests[n - 1].messages + Chunk(v, calls, n - 1)))
  }

  /** One emission per step call that did not stop the loop, then the closing one. */
  ghost predicate EmissionShape<R>(v: Variant<R>, calls: seq<ApiCall<R>>, t: Trace<R>)
  {
    var n := StepCalls(t);
    && 0 <= n <= |calls|
    && (forall j :: 0 <= j < |t.emissions| && !(t.finished && j == |t.emissions| - 1) ==>
          Intermediate(v, calls, t.emissions[j], j))
    && (t.finished ==> 1 <= n && |t.emissions| == n && Closing(v, calls, t.emissions[n - 1], n))
    && (!t.finished ==> |t.emissions| == (if n > 0 && Eligible(v, calls, n - 1) then n - 1 else n))
  }

  /** Everything a run is, described call by call. */
  ghost predicate Shape<R>(v: Variant<R>, calls: seq<ApiCall<R>>, t: Trace<R>)
  {
    StopShape(v, calls, t) && RequestShape(v, calls, t) && EmissionShape(v, calls, t)
  }

  lemma StepsSoFarAppend<R>(v: Variant<R>, calls: seq<ApiCall<R>>, steps: seq<Step>)
    requires StepsSoFar(v, calls, steps) && |steps| < |calls|
    ensures StepsSoFar(v, calls, steps + [ExpectedStep(v, calls, |steps|)])
  {
  }

  lemma {:induction false} ConcludeShape<R(!new)>(v: Variant<R>, calls: seq<ApiCall<R>>, i: nat, s: Session<R>)
    requires Timed(v) && Leaving(v, calls, i, s)
    ensures Shape(v, calls, Conclude(v, calls, i, s))
  {
    var t := Conclude(v, calls, i, s);
    if i < |calls| {
      var steps := s.steps + [ClosingStep(v, calls, i)];
      TotalTimeAppend(s.steps, ClosingStep(v, calls, i));
      assert steps[..i] == s.steps;
      assert Closing(v, calls, t.emissions[i - 1], i);
      assert t.requests[..i] == s.requests;
    }
  }

  /** The session after the `i`-th step call, when it does not stop the loop. */
  function Continued<R>(v: Variant<R>, calls: seq<ApiCall<R>>, i: nat, s: Session<R>): Session<R>
    requires i < |calls|
  {
    var steps := s.steps + [v.stepOf(StepReply(v, calls, i), s.stepCount, calls[i].duration)];
    var decision := Decide(v.action(StepReply(v, calls, i)), s.stepCount);
    Session(s.stepCount + 1,
            s.messages + [Message(Assistant, Json(StepReply(v, calls, i)))] + Appended(v, decision),
            steps, s.total + calls[i].duration, s.requests + [RequestOf(v, s.messages)],
            s.emissions + [Emission(steps, None)])
  }

  /** The session after the `i`-th step call, when it stops the loop. */
  function Left<R>(v: Variant<R>, calls: seq<ApiCall<R>>, i: nat, s: Session<R>): Session<R>
    requires i < |calls|
  {
    var steps := s.steps + [v.stepOf(StepReply(v, calls, i), s.stepCount, calls[i].duration)];
    Session(s.stepCount,
            s.messages + [Message(Assistant, Json(StepReply(v, calls, i)))] + Appended(v, Finish),
            steps, s.total + calls[i].duration, s.requests + [RequestOf(v, s.messages)],
            s.emissions)
  }

  lemma ReachedExhausted<R(!new)>(v: Variant<R>, calls: seq<ApiCall<R>>, i: nat, s: Session<R>)
    requires Reached(v, calls, i, s) && i >= |calls|
    ensures Shape(v, calls, Trace(s.emissions, s.requests, s.messages, false))
  {
  }

  /** Sending the current history and adding one step's messages keeps the chain. */
  lemma ChainedAppend<R>(v: Variant<R>, calls: seq<ApiCall<R>>, requests: seq<Request<R>>,
                         last: seq<Message<R>>)
    requires Chained(v, calls, requests, last) && |requests| < |calls|
    ensures Chained(v, calls, requests + [RequestOf(v, last)], last + Chunk(v, calls, |requests|))
  {
    var requests' := requests + [RequestOf(v, last)];
    assert forall j :: 0 <= j < |requests| ==> requests'[j] == requests[j];
  }

  lemma StepContinues<R(!new)>(v: Variant<R>, calls: seq<ApiCall<R>>, i: nat, s: Session<R>)
    requires Timed(v) && Reached(v, calls, i, s) && i < |calls| && !Eligible(v, calls, i)
    ensures Reached(v, calls, i + 1, Continued(v, calls, i, s))
  {
    var s' := Continued(v, calls, i, s);
    StepsSoFarAppend(v, calls, s.steps);
    TotalTimeAppend(s.steps, ExpectedStep(v, calls, i));
    assert s'.messages == s.messages + Chunk(v, calls, i);
    ChainedAppend(v, calls, s.requests, s.messages);
    assert Intermediate(v, calls, s'.emissions[i], i);
  }

  lemma StepLeaves<R(!new)>(v: Variant<R>, calls: seq<ApiCall<R>>, i: nat, s: Session<R>)
    requires Timed(v) && Reached(v, calls, i, s) && i < |calls| && Eligible(v, calls, i)
    ensures Leaving(v, calls, i + 1, Left(v, calls, i, s))
  {
    var s' := Left(v, calls, i, s);
    StepsSoFarAppend(v, calls, s.steps);
    TotalTimeAppend(s.steps, ExpectedStep(v, calls, i));
    assert s'.messages == s.messages + Chunk(v, calls, i);
    ChainedAppend(v, calls, s.requests, s.messages);
  }

  lemma {:induction false} LoopShape<R(!new)>(v: Variant<R>, calls: seq<ApiCall<R>>, i: nat, s: Session<R>)
    requires Timed(v) && Reached(v, calls, i, s)
    ensures Shape(v, calls, Loop(v, calls, i, s))
    decreases |calls| - i
  {
    if i >= |calls| {
      ReachedExhausted(v, calls, i, s);
    } else if Eligible(v, calls, i) {
      assert Loop(v, calls, i, s) == Conclude(v, calls, i + 1, Left(v, calls, i, s));
      StepLeaves(v, calls, i, s);
      ConcludeShape(v, calls, i + 1, Left(v, calls, i, s));
    } else {
      assert Loop(v, calls, i, s) == Loop(v, calls, i + 1, Continued(v, calls, i, s));
      StepContinues(v, calls, i, s);
      LoopShape(v, calls, i + 1, Continued(v, calls, i, s));
    }
  }

  /** The run of a session, described call by call. */
  lemma RunShape<R(!new)>(v: Variant<R>, calls: seq<ApiCall<R>>)
    requires Timed(v)
    ensures Shape(v, calls, Run(v, calls))
  {
    LoopShape(v, calls, 0, Start(v));
  }

  /**
   * A run finishes exactly when some step call before the last call of the
   * oracle stops the loop, and then the loop was left at the first such call.
   */
  lemma StopsAtFirstEligible<R(!new)>(v: Variant<R>, calls: seq<ApiCall<R>>)
    requires Timed(v)
    ensures var t := Run(v, calls);
      t.finished <==> exists j :: 0 <= j < |calls| - 1 && Eligible(v, calls, j)
    ensures var t := Run(v, calls); var n := |t.requests| - 1;
      t.finished ==>
        && 1 <= n < |calls|
        && Eligible(v, calls, n - 1)
        && forall j :: 0 <= j < n - 1 ==> !Eligible(v, calls, j)
  {
    var t := Run(v, calls);
    RunShape(v, calls);
    if t.finished {
      assert Eligible(v, calls, |t.requests| - 2);
    }
  }

  /**
   * Every emission but the closing one shows the first `j + 1` steps and no
   * total; the closing one exists only in a finished run.
   */
  lemma EmissionsShowSteps<R(!new)>(v: Variant<R>, calls: seq<ApiCall<R>>)
    requires Timed(v)
    ensures var t := Run(v, calls);
      forall j :: 0 <= j < |t.emissions| && t.emissions[j].total == None ==>
        Intermediate(v, calls, t.emissions[j], j)
    ensures var t := Run(v, calls);
      t.finished <==> |t.emissions| > 0 && t.emissions[|t.emissions| - 1].total.Some?
    ensures var t := Run(v, calls);
      forall j :: 0 <= j < |t.emissions| - 1 ==> t.emissions[j].total == None
    ensures var t := Run(v, calls); var n := |t.requests| - 1;
      t.finished ==> |t.emissions| == n && Closing(v, calls, t.emissions[n - 1], n)
  {
    var t := Run(v, calls);
    RunShape(v, calls);
  }

  /** Each request extends the previous one. */
  ghost predicate Extending<R>(requests: seq<Request<R>>)
  {
    forall j :: 0 <= j < |requests| - 1 ==> requests[j].messages <= requests[j + 1].messages
  }

  lemma {:induction false} RequestPrefix<R>(requests: seq<Request<R>>, j: nat, k: nat)
    requires Extending(requests) && j <= k < |requests|
    ensures requests[j].messages <= requests[k].messages
    decreases k - j
  {
    if j < k {
      RequestPrefix(requests, j, k - 1);
      assert requests[k - 1].messages <= requests[k].messages;
    }
  }

  /** What `Shape` says about the history alone. */
  lemma ShapeExtends<R>(v: Variant<R>, calls: seq<ApiCall<R>>, t: Trace<R>)
    requires RequestShape(v, calls, t)
    ensures Extending(t.requests)
    ensures |t.requests| == 0 ==> t.history == v.opening
    ensures |t.requests| > 0 ==>
              t.requests[0].messages == v.opening && t.requests[|t.requests| - 1].messages <= t.history
  {
    forall j | 0 <= j < |t.requests| - 1
      ensures t.requests[j].messages <= t.requests[j + 1].messages
    {
      assert t.requests[j + 1].messages == t.requests[j].messages + Chunk(v, calls, j);
    }
    if |t.requests| > 0 && !t.finished {
      var last := |t.requests| - 1;
      assert t.history == t.requests[last].messages + Chunk(v, calls, last);
    }
  }

  /**
   * The history is append-only: the opening history and every history the
   * provider was sent are prefixes of every later one and of the final history.
   */
  lemma HistoryOnlyGrows<R(!new)>(v: Variant<R>, calls: seq<ApiCall<R>>)
    requires Timed(v)
    ensures var t := Run(v, calls);
      && (forall j, k :: 0 <= j <= k < |t.requests| ==> t.requests[j].messages <= t.requests[k].messages)
      && (forall j :: 0 <= j < |t.requests| ==> t.requests[j].messages <= t.history)
      && (forall j :: 0 <= j < |t.requests| ==> v.opening <= t.requests[j].messages)
      && v.opening <= t.history
  {
    var t := Run(v, calls);
    RunShape(v, calls);
    ShapeExtends(v, calls, t);
    forall j, k | 0 <= j <= k < |t.requests|
      ensures t.requests[j].messages <= t.requests[k].messages
    {
      RequestPrefix(t.requests, j, k);
    }
    if |t.requests| > 0 {
      RequestPrefix(t.requests, 0, |t.requests| - 1);
    }
  }

  /** No message of `messages` is a system message. */
  predicate NoSystem<R>(messages: seq<Message<R>>)
  {
    forall m :: 0 <= m < |messages| ==> messages[m].role != System
  }

  lemma NoSystemAppend<R>(a: seq<Message<R>>, b: seq<Message<R>>)
    requires NoSystem(a) && NoSystem(b)
    ensures NoSystem(a + b)
  {
    assert forall m :: |a| <= m < |a + b| ==> (a + b)[m] == b[m - |a|];
  }

  lemma ChunkNoSystem<R>(v: Variant<R>, calls: seq<ApiCall<R>>, j: nat)
    requires j < |calls| && NoSystem(v.proceed)
    ensures NoSystem(Chunk(v, calls, j))
  {
    var a: seq<Message<R>> := [Message(Assistant, Json(StepReply(v, calls, j)))];
    NoSystemAppend(a, Appended(v, StepDecision(v, calls, j)));
  }

  lemma {:induction false} RequestNoSystem<R>(v: Variant<R>, calls: seq<ApiCall<R>>, t: Trace<R>, k: nat)
    requires RequestShape(v, calls, t) && k < |t.requests| && NoSystem(v.opening) && NoSystem(v.proceed)
    ensures NoSystem(t.requests[k].messages)
  {
    if k > 0 {
      RequestNoSystem(v, calls, t, k - 1);
      ChunkNoSystem(v, calls, k - 1);
      NoSystemAppend(t.requests[k - 1].messages, Chunk(v, calls, k - 1));
    }
  }

  /**
   * A session whose opening history and default follow-up hold no system
   * message never puts one into the history: the system prompt travels only
   * beside it.
   */
  lemma SystemPromptStaysOutside<R(!new)>(v: Variant<R>, calls: seq<ApiCall<R>>)
    requires Timed(v) && NoSystem(v.opening) && NoSystem(v.proceed)
    ensures var t := Run(v, calls);
      && NoSystem(t.history)
      && (forall j :: 0 <= j < |t.requests| ==> NoSystem(t.requests[j].messages))
  {
    var t := Run(v, calls);
    RunShape(v, calls);
    forall j | 0 <= j < |t.requests|
      ensures NoSystem(t.requests[j].messages)
    {
      RequestNoSystem(v, calls, t, j);
    }
    if |t.requests| > 0 && !t.finished {
      var last := |t.requests| - 1;
      ChunkNoSystem(v, calls, last);
      NoSystemAppend(t.requests[last].messages, Chunk(v, calls, last));
    }
  }
}

=== FILE: retry.dfy ===
/**
 * The bounded retry loop shared by both `make_api_call` functions: up to
 * three attempts, the first reply wins, and exhausting the attempts is not
 * an exception but a value the caller turns into an error record.
 */
module Retry {
  import opened Conversation

  /** How the retry loop ended: a reply after `made` attempts, or the last error. */
  datatype Result<R> = Answered(reply: R, made: nat) | Exhausted(error: string)

  /** Attempt `i` is the first that replied. */
  predicate FirstSuccess<R>(attempts: seq<Outcome<R>>, i: nat)
  {
    i < |attempts| && attempts[i].Ok? && forall j :: 0 <= j < i ==> attempts[j].Fail?
  }

  /** Every attempt raised. */
  predicate AllFail<R>(attempts: seq<Outcome<R>>)
  {
    forall j :: 0 <= j < |attempts| ==> attempts[j].Fail?
  }

  /** Attempts made in all: those up to the reply, or every attempt. */
  function Made<R>(r: Result<R>): nat
  {
    match r
    case Answered(_, made) => made
    case Exhausted(_) => MaxAttempts
  }

  /** The loop `for attempt in range(3)` from iteration `attempt` on. */
  function TryFrom<R>(attempts: Attempts<R>, attempt: nat): (r: Result<R>)
    requires attempt < MaxAttempts
    ensures r.Answered? ==>
              && attempt < r.made <= MaxAttempts
              && attempts[r.made - 1] == Ok(r.reply)
              && forall j :: attempt <= j < r.made - 1 ==> attempts[j].Fail?
    ensures r.Exhausted? ==>
              && (forall j :: attempt <= j < MaxAttempts ==> attempts[j].Fail?)
              && r.error == attempts[MaxAttempts - 1].error
    decreases MaxAttempts - attempt
  {
    match attempts[attempt]
    case Ok(reply) => Answered(reply, attempt + 1)
    case Fail(e) =>
      if attempt == MaxAttempts - 1 then Exhausted(e) else TryFrom(attempts, attempt + 1)
  }

  /**
   * The retry loop: the first reply, unchanged, if some attempt replies;
   * otherwise the error of the last attempt.
   */
  function Retry<R>(attempts: Attempts<R>): (r: Result<R>)
    ensures 1 <= Made(r) <= MaxAttempts
    ensures r.Answered? ==> FirstSuccess(attempts, r.made - 1) && r.reply == attempts[r.made - 1].reply
    ensures r.Exhausted? ==> AllFail(attempts) && r.error == attempts[MaxAttempts - 1].error
    ensures forall i :: 0 <= i < MaxAttempts && FirstSuccess(attempts, i) ==> r == Answered(attempts[i].reply, i + 1)
  {
    TryFrom(attempts, 0)
  }

  /**
   * Nothing after the first reply is consulted: two oracles that agree on the
   * attempts the loop made give the same result.
   */
  lemma {:induction false} OnlyMadeAttemptsMatter<R>(a: Attempts<R>, b: Attempts<R>)
    requires a[..Made(Retry(a))] == b[..Made(Retry(a))]
    ensures Retry(b) == Retry(a)
  {
    var ra, rb := Retry(a), Retry(b);
    var n := Made(ra);
    assert forall j :: 0 <= j < n ==> a[j] == b[j] by {
      forall j | 0 <= j < n ensures a[j] == b[j] {
        assert a[..n][j] == b[..n][j];
      }
    }
    if ra.Answered? {
      assert FirstSuccess(b, n - 1);
    } else {
      assert AllFail(b);
    }
  }

  /** The error content of the fallback record, naming the kind of call. */
  function ErrorContent(isFinal: bool, error: string): (r: string)
    ensures |r| == 45 + (if isFinal then 12 else 4) + |error|
    ensures r[..19] == "Failed to generate "
    ensures isFinal ==> r[19..31] == "final answer"
    ensures !isFinal ==> r[19..23] == "step"
    ensures r[19 + (if isFinal then 12 else 4)..|r| - |error|] == " after 3 attempts. Error: "
    ensures r[|r| - |error|..] == error
  {
    "Failed to generate " + (if isFinal then "final answer" else "step")
      + " after 3 attempts. Error: " + error
  }
}
